=== FILE: README.md ===
# Azure AD → PRA SCIM reconciliation, modelled in Dafny

This project models the reconciliation logic of a one-shot synchroniser
(`main.py`). The synchroniser reads the users and groups assigned to an
application in an Azure AD tenant through Microsoft Graph. It then makes the
users and groups of a BeyondTrust PRA instance mirror them through PRA's SCIM
API. The HTTP calls are left out. What remains is a pure pipeline:

1. **Parsing** (`Text`, `Directory.ParseUser`). A display name is split the
   way Python's `str.split()` splits it, on runs of Unicode whitespace as
   `str.isspace()` defines it. The given name is the first token. The family
   name is the remaining tokens joined by one space. The external id is the
   e-mail up to its first `@`.
2. **Classification** (`Directory.Classify`). An assigned object whose
   `@odata.type` contains `"user"` becomes a user. Otherwise, one containing
   `"group"` becomes a group, and each of its user-typed members becomes a
   user tagged with the group's id. Anything else is ignored. The tests are
   substring tests on the tag string, as in the code.
3. **Deduplication** (`Normalize`). The first record seen with an e-mail is
   kept and the order is preserved. There is a reference function `Dedup` and
   a loop `Deduplicate` that uses a set of seen e-mails, as the code does.
4. **Phases** (`Reconcile`):
   - group creates by name absence;
   - group deletes by name absence;
   - user creates by e-mail absence;
   - user deletes by e-mail absence;
   - member-list replacement when the member-id sets differ.

   The two create phases filter source records (the groups, and the
   deduplicated users) against the first target read. The two delete phases
   filter a later target read against the source records. The membership
   phase walks the source groups and consults two later reads: the users
   (main.py:233) and the groups (main.py:239). Each write is a payload record.
5. **A run** (`Sync`). An empty service-principal list or an empty assignment
   list ends the run with no writes. Otherwise the run yields the ordered
   plan. Every target read the code uses is a separate `Snapshots` field.
   The server's behaviour between reads is not visible in the code, so the
   reads are inputs.

Behaviour of the code that the model keeps, and proves:

- Membership is computed from the **deduplicated** list, not from the list
  before deduplication. A user reached through two groups counts only toward
  the first group it was seen under. A user assigned directly and seen before
  a group that also holds it keeps its untagged record, so it counts toward
  no group. See `Reconcile.EmailInOneGroupOnly`,
  `Reconcile.SecondGroupLosesSharedUser` and `Reconcile.DirectUserJoinsNoGroup`.
- Group creates are checked only against the first target read. Two source
  groups with the same absent name are both created. `Reconcile.GroupCreates`
  keeps duplicates, and `Reconcile.GroupCreatesAppend` shows the filter works
  item by item.
- A run whose assignments are all neither users nor groups does not stop
  early. It deletes every group and every user it reads back
  (`Sync.UnrecognisedAssignmentsClearTarget`).
- A target record whose display name or e-mail is missing never matches a
  source record, since source names and e-mails are always strings in the
  model. Such a record is therefore always deleted. The one case where the
  code behaves otherwise, a source group whose name is null, is listed under
  "Left out".

## Model

| member | source | states |
|---|---|---|
| `Text.WordsAreWords` | main.py:89 | every token of `str.split()` is non-empty and free of whitespace |
| `Text.WordsEmpty` | main.py:89-90 | splitting yields no tokens exactly when the name is empty or whitespace-only |
| `Text.WordsOfJoin` | main.py:89-91 | splitting inverts `" ".join`: tokens joined by single spaces split back into the same tokens |
| `Text.WordsOfInterleave` | main.py:89 | tokens set apart by whitespace runs of any length and kind, non-empty between tokens and optional at either end, split back into exactly those tokens |
| `Text.SeparatorsOfShape` | main.py:89 | a name's whitespace runs are one more than its tokens, all whitespace-only, and non-empty between two tokens |
| `Text.InterleaveSeparatorsOf` | main.py:89 | every name is its tokens put back between its whitespace runs |
| `Text.WordsCharacterised` | main.py:89 | `ws` are the tokens of a name iff the name is `ws` interleaved with whitespace runs that are non-empty between tokens, so the tokens are the maximal whitespace-free runs |
| `Text.WordsOfTabs` | main.py:89 | " a\t\tb  c " splits into "a", "b", "c" |
| `Text.WordsKeepNonSpace` | main.py:89 | the tokens, glued together, are exactly the non-whitespace characters of the name in their original order |
| `Text.SplitName` | main.py:89-91 | the given name holds no whitespace; it is empty iff the name is empty or whitespace-only; the family name is empty iff there is at most one token; a single token gives (token, ""); given and family name joined by one space give the name with its whitespace runs collapsed |
| `Text.SplitNameOfJoin` | main.py:89-91 | for tokens `ws`: no tokens give ("", ""), one gives (ws[0], ""), more give (ws[0], the rest joined by one space) |
| `Text.SplitNameJane` | main.py:89-91 | "Jane Q. Public" gives ("Jane", "Q. Public") |
| `Text.SplitNameMadonna` | main.py:89-91 | "Madonna" gives ("Madonna", "") |
| `Text.SplitNameEmpty` | main.py:89-91 | "" gives ("", "") |
| `Text.LocalPart` | main.py:88 | the external id is a prefix of the e-mail and holds no '@'; it ends just before the first '@', and it is the whole e-mail when there is no '@' |
| `Text.Contains` | main.py:110-114 | the type-tag test holds iff the word occurs in the tag at some position |
| `Directory.ParseUser` | main.py:85-99 | missing display name or principal name read as ""; the parsed user has no group tag, its names are the split display name, and its external id is the local part of the e-mail |
| `Directory.MemberUsers` | main.py:124-130 | a group contributes, tagged with its id, exactly the parsed members whose type mentions "user", and no more records than it has members |
| `Directory.MemberUsersAppend` | main.py:125-130 | a group's members are visited in list order: the records of a concatenation are the concatenated records, and one member gives its tagged record if it is a user, nothing otherwise |
| `Directory.Classify` | main.py:105-130 | groups are exactly the assignments whose tag mentions "group" but not "user"; untagged users are exactly the parsed user assignments; tagged users are exactly the parsed user-typed members of group assignments; every group tag names a classified group; the users' order is fixed by `ClassifyOne` and `ClassifyAppend` |
| `Directory.ClassifyAppend` | main.py:105-130 | classification visits assignments in order: classifying a concatenation concatenates users and groups; a single user assignment contributes its own record, a single group assignment its user-typed members in member order, anything else no user |
| `Directory.ClassifyOne` | main.py:105-130 | one assignment on its own: a user gives exactly its parsed record, a group exactly `MemberUsers` of its members in member order plus its group record, anything else nothing |
| `Normalize.Dedup` | main.py:133-140 | the result has pairwise distinct e-mails, the same set of e-mails as the input, and is no longer than the input |
| `Normalize.KeptIndices` | main.py:135-139 | the kept positions are increasing, and a position is kept iff no earlier record shares its e-mail |
| `Normalize.DedupKeepsFirstSeen` | main.py:133-140 | the result is the input read at the kept positions, so it is an order-preserving subsequence made of the first record for each e-mail |
| `Normalize.DedupOfDistinct` | main.py:133-140 | a list whose e-mails are already distinct is returned unchanged |
| `Normalize.DedupIdempotent` | main.py:133-140 | deduplicating twice equals deduplicating once |
| `Normalize.DedupCount` | main.py:133-140 | N records with M distinct e-mails give exactly M records |
| `Normalize.Deduplicate` | main.py:133-140 | the loop with a seen-set computes the reference deduplication, so its result has distinct e-mails (and, by `Normalize.Dedup`, the input's e-mail set) |
| `Target.FindUserByEmail` | main.py:251 | the first target user listing the e-mail, or none iff no target user lists it |
| `Target.FindGroupByName` | main.py:244 | the first target group with the name, or none iff no target group has it |
| `Reconcile.GroupCreates` | main.py:171-181 | a payload (displayName = name, externalId = id) is issued exactly for the source groups whose name no initially read target group has; none names an existing group |
| `Reconcile.GroupCreatesAppend` | main.py:172-173 | creates follow source order, duplicates included: the phase over a concatenation is the concatenation of the phases |
| `Reconcile.GroupDeletes` | main.py:184-192 | a delete is issued exactly for the re-read target groups whose name no source group has; a group sharing a name with a source group is never deleted |
| `Reconcile.GroupDeletesAppend` | main.py:187-188 | deletes follow the order of the re-read |
| `Reconcile.UserCreates` | main.py:197-221 | a payload (userName and work e-mail = e-mail, givenName, familyName, externalId, active) is issued exactly for the deduplicated users whose e-mail no initially read target user lists |
| `Reconcile.UserCreatesAppend` | main.py:198-199 | user creates follow the order of the deduplicated list |
| `Reconcile.UserCreatesDistinct` | main.py:133-140 | over deduplicated users no user name is posted twice |
| `Reconcile.UserDeletes` | main.py:223-231 | a delete is issued exactly for the re-read target users whose e-mail no deduplicated source user has |
| `Reconcile.UserDeletesAppend` | main.py:226-227 | user deletes follow the order of the re-read |
| `Reconcile.HasEmailDedup` | main.py:227 | matching against the deduplicated list equals matching against the raw list |
| `Reconcile.MembersOf` | main.py:236-243 | a group's source members are exactly the deduplicated users tagged with its id |
| `Reconcile.MembersOfAppend` | main.py:243 | a group's source members keep the order of the deduplicated list: the members of a concatenation are the concatenated members, and one user is kept iff it carries the group's tag |
| `Reconcile.DesiredIds` | main.py:248-255 | the desired ids are exactly the first-match target ids of the members that resolve; each is the id of a target user whose e-mail belongs to a member; unresolved members are dropped |
| `Reconcile.DesiredIdsAppend` | main.py:250-253 | desired ids follow member order: the ids of a concatenation are the concatenated ids |
| `Reconcile.DesiredIdsOne` | main.py:251-253 | one member gives the id of the first target user with its e-mail, or nothing |
| `Reconcile.MatchedGroup` | main.py:244-246 | the matched target group is the first one in the read with the source group's name; there is none iff no target group has it |
| `Reconcile.MemberUpdateFor` | main.py:242-271 | an update is issued iff the group has a match whose member-id set differs from the desired set; it carries the desired list and the id and name of the first target group with the source group's name |
| `Reconcile.MemberUpdates` | main.py:241-271 | an update is in the phase iff some source group yields it |
| `Reconcile.MemberUpdatesAppend` | main.py:242 | updates follow the order of the source groups |
| `Reconcile.MemberOrderIrrelevant` | main.py:257-259 | reordering a target group's current members never changes whether or how it is updated |
| `Reconcile.EmailInOneGroupOnly` | main.py:236-243 | after deduplication no e-mail is a desired member of two different groups |
| `Reconcile.GroupKeepsFirstListedMember` | main.py:125-139 | within one group, of two user-typed members sharing an e-mail, the record deduplication keeps is the one listed first in the group |
| `Reconcile.SecondGroupLosesSharedUser` | main.py:132-140 | a user found under two groups is a member of the first group only |
| `Reconcile.DirectUserJoinsNoGroup` | main.py:132-140 | a user assigned directly and then found under a group is a member of no group |
| `Sync.MakePlan` | main.py:132-271 | creates name only absent groups and e-mails; user names are posted once; deletes spare every source name and e-mail; updates target read groups and list only ids of re-read target users |
| `Sync.Run` | main.py:53-68 | no service principal, or no assignment, ends the run with no operations; otherwise the plan of the classified assignments |
| `Sync.PlanEmptyIff` | main.py:171-271 | the plan is empty iff each phase finds nothing to do against the read or reads it consults |
| `Sync.ConvergedIffEmptyPlan` | main.py:171-271 | against an unchanging target the plan is empty iff group names and e-mails match as sets and every matched group already has its desired member set |
| `Sync.RunOnConvergedTargetIsEmpty` | main.py:171-271 | a run against a converged, unchanging target writes nothing |
| `Sync.UnrecognisedAssignmentsClearTarget` | main.py:105-130 | assignments that are neither users nor groups create nothing and delete every re-read group and user |
| `Sync.Operations` | main.py:171-271 | the writes, in issue order, are as many as the plan's payloads and sorted by phase: group creates, group deletes, user creates, user deletes, member updates |
| `Sync.OperationsLayout` | main.py:171-271 | each phase's payloads occupy one contiguous block of the writes, in the order the phase computed them |
| `Sync.RenameIsCreateThenDelete` | main.py:171-192 | a renamed group yields a create of the new name before a delete of the old one |

## Left out

- Token acquisition and the Microsoft Graph calls (main.py:29-83) are network I/O. Their results are inputs: the service-principal list, and the assignments with their fetched objects and member lists.
- The SCIM transport (main.py:143-169 and the POST, DELETE and PUT calls) is left out: headers, JSON encoding and the `schemas` URNs. Payloads are records.
- The target server's behaviour is left out. Each target read is an input (`Sync.Snapshots`). The read at main.py:195 is overwritten at main.py:239 before any use, so it has no field.
- `raise_for_status` is left out. In the code, the first failing call aborts the whole run. The model describes the plan a run issues when every call succeeds. The code has no per-operation failure isolation, and neither does the model.
- A user's display name or principal name, or an object's `@odata.type`, that is present but null makes the code raise (main.py:88-89, 110, 127). So does an empty `emails` list on a target user (main.py:154). None of this is modelled. A missing source field reads as "", as in the code.
- A source group whose `displayName` is present but null is left out. The code names it `None` (main.py:118), and `None == None` then matches it against target groups without a display name (main.py:173, 188, 244). The model reads a source group's name as a string, so no such match happens.
- Null target ids and null member values are left out (main.py:155, 164-165). `Target.TargetUser.id`, `Target.TargetGroup.id` and the member ids are plain strings. A missing target display name or e-mail is modelled, as `None`, and matches nothing.
- Only the first service principal's id is used, and only to fetch assignments. The model therefore needs to know only whether the list is empty.
- Concurrency, timeouts and the `print` audit lines are left out.
- `Text.IsSpace` lists Python's whitespace code points explicitly. It does not consult a Unicode database.

=== FILE: directory.dfy ===
/**
 * The source directory as the reconciliation sees it: the objects assigned to
 * the application, the user and group records parsed from them, and the
 * classification of assignments into users and groups (main.py:85-130).
 */
module Directory {
  import opened Options
  import opened Text
  import opened Seqs

  /** A directory object as the graph API returns it; a missing field is `None`. */
  datatype DirObject = DirObject(
    odataType: Option<string>,
    displayName: Option<string>,
    userPrincipalName: Option<string>)

  /** One app-role assignment: the assigned principal's id, the object fetched
      for that id, and the member list fetched for it should it be a group. */
  datatype Assignment = Assignment(principalId: string, principal: DirObject, members: seq<DirObject>)

  /** A parsed user record; `group` is the id of the group it was reached through. */
  datatype User = User(
    completeName: string,
    email: string,
    firstName: string,
    lastName: string,
    externalId: string,
    group: Option<string>)

  datatype Group = Group(id: string, name: string)

  /** What classification gathers, in the order the assignments were visited. */
  datatype Principals = Principals(users: seq<User>, groups: seq<Group>)

  function TypeTag(o: DirObject): string
  {
    o.odataType.GetOr("")
  }

  /** The type tag mentions "user" (for instance `#microsoft.graph.user`). */
  predicate IsUserObject(o: DirObject)
  {
    Contains(TypeTag(o), "user")
  }

  predicate IsGroupObject(o: DirObject)
  {
    Contains(TypeTag(o), "group")
  }

  /** An assignment handled as a group: the "user" test comes first, so a tag
      mentioning both words makes a user. */
  predicate IsGroupAssignment(a: Assignment)
  {
    !IsUserObject(a.principal) && IsGroupObject(a.principal)
  }

  function GroupOf(a: Assignment): Group
  {
    Group(a.principalId, a.principal.displayName.GetOr(""))
  }

  /** `parse_user`: missing fields read as "", the given name is the first
      whitespace-free token, given and family name put back together are the
      display name with its whitespace runs collapsed, and the external id is
      the part of the e-mail before its first '@'. */
  function ParseUser(o: DirObject): (u: User)
    ensures u.completeName == o.displayName.GetOr("")
    ensures u.email == o.userPrincipalName.GetOr("")
    ensures u.group == None
    ensures NoSpace(u.firstName)
    ensures u.firstName == "" <==> AllSpace(u.completeName)
    ensures Recompose(PersonName(u.firstName, u.lastName)) == JoinSpace(Words(u.completeName))
    ensures u.externalId <= u.email && '@' !in u.externalId
    ensures '@' !in u.email ==> u.externalId == u.email
    ensures '@' in u.email ==> u.email[|u.externalId|] == '@'
  {
    var fullName := o.displayName.GetOr("");
    var email := o.userPrincipalName.GetOr("");
    var name := SplitName(fullName);
    User(fullName, email, name.first, name.last, LocalPart(email), None)
  }

  function TagUser(o: DirObject, groupId: string): User
  {
    ParseUser(o).(group := Some(groupId))
  }

  /** The user-typed members of a group, parsed and tagged with the group's id. */
  function MemberUsers(members: seq<DirObject>, groupId: string): (us: seq<User>)
    ensures |us| <= |members|
    ensures forall u :: u in us <==> exists m :: m in members && IsUserObject(m) && u == TagUser(m, groupId)
    ensures forall u :: u in us ==> u.group == Some(groupId)
  {
    if members == [] then []
    else
      var rest := MemberUsers(members[1..], groupId);
      assert forall m :: m in members <==> m == members[0] || m in members[1..];
      if IsUserObject(members[0]) then [TagUser(members[0], groupId)] + rest else rest
  }

  /** Members are visited in list order: a group's member list splits into
      the records of its parts, one member giving its own record or none. */
  lemma {:induction false} MemberUsersAppend(a: seq<DirObject>, b: seq<DirObject>, groupId: string)
    ensures MemberUsers(a + b, groupId) == MemberUsers(a, groupId) + MemberUsers(b, groupId)
    ensures |a| == 1 ==> MemberUsers(a, groupId) == (if IsUserObject(a[0]) then [TagUser(a[0], groupId)] else [])
    decreases |a|
  {
    if a == [] {
      assert a + b == b;
    } else {
      assert (a + b)[0] == a[0];
      assert (a + b)[1..] == a[1..] + b;
      MemberUsersAppend(a[1..], b, groupId);
    }
  }

  /** The user records one assignment contributes: itself if it is a user,
      its user-typed members if it is a group, nothing otherwise. */
  function UsersOf(a: Assignment): seq<User>
  {
    if IsUserObject(a.principal) then [ParseUser(a.principal)]
    else if IsGroupObject(a.principal) then MemberUsers(a.members, a.principalId)
    else []
  }

  /** The group record one assignment contributes. */
  function GroupsOf(a: Assignment): seq<Group>
  {
    if IsGroupAssignment(a) then [GroupOf(a)] else []
  }

  /** The users gathered by the classification loop, in visiting order. */
  function GatherUsers(assignments: seq<Assignment>): seq<User>
  {
    FlatMap(assignments, UsersOf)
  }

  /** The groups gathered by the classification loop, in visiting order. */
  function GatherGroups(assignments: seq<Assignment>): seq<Group>
  {
    FlatMap(assignments, GroupsOf)
  }

  lemma {:induction false} GatherGroupsFacts(assignments: seq<Assignment>)
    ensures |GatherGroups(assignments)| <= |assignments|
    ensures forall g :: g in GatherGroups(assignments) <==>
              exists a :: a in assignments && IsGroupAssignment(a) && g == GroupOf(a)
    decreases |assignments|
  {
    if assignments != [] {
      GatherGroupsFacts(assignments[1..]);
      assert forall a :: a in assignments <==> a == assignments[0] || a in assignments[1..];
    }
  }

  lemma {:induction false} GatherUsersFacts(assignments: seq<Assignment>)
    ensures forall u :: u in GatherUsers(assignments) && u.group == None <==>
              exists a :: a in assignments && IsUserObject(a.principal) && u == ParseUser(a.principal)
    ensures forall u :: u in GatherUsers(assignments) && u.group != None <==>
              exists a, m :: a in assignments && IsGroupAssignment(a) && m in a.members && IsUserObject(m)
                             && u == TagUser(m, a.principalId)
    decreases |assignments|
  {
    if assignments != [] {
      GatherUsersFacts(assignments[1..]);
      assert forall a :: a in assignments <==> a == assignments[0] || a in assignments[1..];
    }
  }

  /** Every group tag names a gathered group. */
  lemma NoOrphanTags(assignments: seq<Assignment>)
    ensures forall u :: u in GatherUsers(assignments) && u.group != None ==>
              exists g :: g in GatherGroups(assignments) && u.group == Some(g.id)
  {
    GatherGroupsFacts(assignments);
    GatherUsersFacts(assignments);
    forall u | u in GatherUsers(assignments) && u.group != None
      ensures exists g :: g in GatherGroups(assignments) && u.group == Some(g.id)
    {
      var a, m :| a in assignments && IsGroupAssignment(a) && m in a.members && IsUserObject(m)
                  && u == TagUser(m, a.principalId);
      assert GroupOf(a) in GatherGroups(assignments);
    }
  }

  /** The classification loop over all assignments. */
  function Classify(assignments: seq<Assignment>): (p: Principals)
    ensures |p.groups| <= |assignments|
    ensures forall g :: g in p.groups <==> exists a :: a in assignments && IsGroupAssignment(a) && g == GroupOf(a)
    ensures forall u :: u in p.users && u.group == None <==>
              exists a :: a in assignments && IsUserObject(a.principal) && u == ParseUser(a.principal)
    ensures forall u :: u in p.users && u.group != None <==>
              exists a, m :: a in assignments && IsGroupAssignment(a) && m in a.members && IsUserObject(m)
                             && u == TagUser(m, a.principalId)
    ensures forall u :: u in p.users && u.group != None ==> exists g :: g in p.groups && u.group == Some(g.id)
  {
    GatherGroupsFacts(assignments);
    GatherUsersFacts(assignments);
    NoOrphanTags(assignments);
    Principals(GatherUsers(assignments), GatherGroups(assignments))
  }

  /** One assignment on its own: a user contributes its own record, a group
      its user-typed members in member order, anything else no user. */
  lemma ClassifyOne(x: Assignment)
    ensures IsUserObject(x.principal) ==> Classify([x]).users == [ParseUser(x.principal)]
    ensures IsGroupAssignment(x) ==> Classify([x]).users == MemberUsers(x.members, x.principalId)
    ensures !IsUserObject(x.principal) && !IsGroupObject(x.principal) ==> Classify([x]).users == []
    ensures Classify([x]).groups == (if IsGroupAssignment(x) then [GroupOf(x)] else [])
  {
    assert [x][1..] == [];
    assert FlatMap([x], UsersOf) == UsersOf(x) + FlatMap([x][1..], UsersOf);
    assert FlatMap([x], GroupsOf) == GroupsOf(x) + FlatMap([x][1..], GroupsOf);
  }

  /** Classification visits assignments in order: classifying a concatenation
      concatenates the results, and a single assignment contributes the
      records `ClassifyOne` states. */
  lemma ClassifyAppend(a: seq<Assignment>, b: seq<Assignment>)
    ensures Classify(a + b).users == Classify(a).users + Classify(b).users
    ensures Classify(a + b).groups == Classify(a).groups + Classify(b).groups
    ensures |a| == 1 && IsUserObject(a[0].principal) ==> Classify(a).users == [ParseUser(a[0].principal)]
    ensures |a| == 1 && IsGroupAssignment(a[0]) ==> Classify(a).users == MemberUsers(a[0].members, a[0].principalId)
    ensures |a| == 1 && !IsUserObject(a[0].principal) && !IsGroupObject(a[0].principal) ==> Classify(a).users == []
  {
    FlatMapAppend(a, b, UsersOf);
    FlatMapAppend(a, b, GroupsOf);
    if |a| == 1 {
      assert a == [a[0]];
      ClassifyOne(a[0]);
    }
  }

}

=== FILE: normalize.dfy ===
/**
 * Deduplication of the gathered user records by e-mail (main.py:133-140):
 * the first record seen with an address is kept, later ones are dropped,
 * and the survivors keep their relative order.
 */
module Normalize {
  import opened Directory

  function Emails(users: seq<User>): set<string>
  {
    set u | u in users :: u.email
  }

  predicate DistinctEmails(users: seq<User>)
  {
    forall i, j :: 0 <= i < j < |users| ==> users[i].email != users[j].email
  }

  /** No record before index `i` has the e-mail of record `i`. */
  predicate FirstWithEmail(users: seq<User>, i: nat)
    requires i < |users|
  {
    forall j :: 0 <= j < i ==> users[j].email != users[i].email
  }

  /** The deduplicated list, built one record at a time as the loop consumes them. */
  function Dedup(users: seq<User>): (r: seq<User>)
    ensures DistinctEmails(r)
    ensures Emails(r) == Emails(users)
    ensures |r| <= |users|
    decreases |users|
  {
    if users == [] then []
    else
      var init := users[..|users| - 1];
      var last := users[|users| - 1];
      var kept := Dedup(init);
      assert users == init + [last];
      assert Emails(users) == Emails(init) + {last.email};
      if last.email in Emails(init) then
        kept
      else
        assert forall i :: 0 <= i < |kept| ==> kept[i].email in Emails(init);
        assert Emails(kept + [last]) == Emails(kept) + {last.email};
        kept + [last]
  }

  /** The indices of the records Dedup keeps: strictly increasing, and an
      index is among them iff no earlier record shares its e-mail. */
  function KeptIndices(users: seq<User>): (idx: seq<nat>)
    ensures forall k :: 0 <= k < |idx| ==> idx[k] < |users|
    ensures forall k, l :: 0 <= k < l < |idx| ==> idx[k] < idx[l]
    ensures forall i :: 0 <= i < |users| ==> (i in idx <==> FirstWithEmail(users, i))
    decreases |users|
  {
    if users == [] then []
    else
      var n := |users| - 1;
      var init := users[..n];
      var before := KeptIndices(init);
      EmailsPrefix(users, n);
      assert forall i :: 0 <= i < n ==> (FirstWithEmail(users, i) <==> FirstWithEmail(init, i));
      before + (if users[n].email in Emails(init) then [] else [n])
  }

  lemma {:induction false} EmailsPrefix(users: seq<User>, i: nat)
    requires i < |users|
    ensures users[i].email in Emails(users[..i]) <==> !FirstWithEmail(users, i)
  {
    if users[i].email in Emails(users[..i]) {
      var u :| u in users[..i] && u.email == users[i].email;
      var j :| 0 <= j < i && users[..i][j] == u;
      assert users[j].email == users[i].email;
    } else {
      forall j | 0 <= j < i
        ensures users[j].email != users[i].email
      {
        assert users[j] == users[..i][j];
      }
    }
  }

  /** Dedup keeps exactly the first record seen for each e-mail, in input
      order: its result is `users` read at the kept indices. */
  lemma {:induction false} DedupKeepsFirstSeen(users: seq<User>)
    ensures |Dedup(users)| == |KeptIndices(users)|
    ensures forall k :: 0 <= k < |KeptIndices(users)| ==> Dedup(users)[k] == users[KeptIndices(users)[k]]
    decreases |users|
  {
    if users != [] {
      var n := |users| - 1;
      var init := users[..n];
      DedupKeepsFirstSeen(init);
      var kept, idx := Dedup(init), KeptIndices(init);
      forall k | 0 <= k < |idx|
        ensures kept[k] == users[idx[k]]
      {
        assert users[idx[k]] == init[idx[k]];
      }
      if users[n].email !in Emails(init) {
        assert Dedup(users) == kept + [users[n]];
        assert KeptIndices(users) == idx + [n];
      }
    }
  }

  /** A list whose e-mails are already distinct is left as it is. */
  lemma {:induction false} DedupOfDistinct(users: seq<User>)
    requires DistinctEmails(users)
    ensures Dedup(users) == users
    decreases |users|
  {
    if users != [] {
      var n := |users| - 1;
      var init := users[..n];
      DedupOfDistinct(init);
      EmailsPrefix(users, n);
      assert init + [users[n]] == users;
    }
  }

  /** Deduplicating twice is deduplicating once. */
  lemma DedupIdempotent(users: seq<User>)
    ensures Dedup(Dedup(users)) == Dedup(users)
  {
    DedupOfDistinct(Dedup(users));
  }

  /** A list with distinct e-mails has one e-mail per record. */
  lemma {:induction false} DistinctEmailsCount(users: seq<User>)
    requires DistinctEmails(users)
    ensures |Emails(users)| == |users|
    decreases |users|
  {
    if users != [] {
      var n := |users| - 1;
      var init := users[..n];
      DistinctEmailsCount(init);
      assert users == init + [users[n]];
      assert Emails(users) == Emails(init) + {users[n].email};
      EmailsPrefix(users, n);
    }
  }

  /** N records carrying M distinct e-mails deduplicate to exactly M records. */
  lemma DedupCount(users: seq<User>)
    ensures |Dedup(users)| == |Emails(users)|
  {
    DistinctEmailsCount(Dedup(users));
  }

  /** The loop of main.py:133-139, with the set of e-mails seen so far. */
  method Deduplicate(users: seq<User>) returns (unique: seq<User>)
    ensures unique == Dedup(users)
    ensures DistinctEmails(unique)
  {
    var seen: set<string> := {};
    unique := [];
    var i := 0;
    while i < |users|
      invariant 0 <= i <= |users|
      invariant unique == Dedup(users[..i])
      invariant seen == Emails(users[..i])
    {
      var u := users[i];
      assert users[..i + 1] == users[..i] + [u];
      assert users[..i + 1][..i] == users[..i];
      if u.email !in seen {
        seen := seen + {u.email};
        unique := unique + [u];
      }
      i := i + 1;
    }
    assert users[..i] == users;
  }
}

=== FILE: options.dfy ===
/** Optional values: the model's counterpart of a JSON field that may be absent or null. */
module Options {

  datatype Option<+T> = None | Some(value: T) {

    /** The wrapped value, or `default` when there is none (Python's `d.get(key, default)`). */
    function GetOr(default: T): (r: T)
      ensures Some? ==> r == value
      ensures None? ==> r == default
    {
      match this
      case Some(v) => v
      case None => default
    }
  }
}

=== FILE: plan.dfy ===
/**
 * One run of the synchronisation: the early exits, the ordered plan built
 * from the classified source records and the successive target reads, and
 * the conditions under which the plan is empty.
 */
module Sync {
  import opened Options
  import opened Directory
  import opened Normalize
  import opened Target
  import opened Reconcile

  /** The target reads a run consults, one per read in main.py. */
  datatype Snapshots = Snapshots(
    initialUsers: seq<TargetUser>,         // main.py:168, consulted by the user creates
    initialGroups: seq<TargetGroup>,       // main.py:169, consulted by the group creates
    groupsAfterCreates: seq<TargetGroup>,  // main.py:184, consulted by the group deletes
    usersAfterCreates: seq<TargetUser>,    // main.py:223, consulted by the user deletes
    usersAfterDeletes: seq<TargetUser>,    // main.py:233, resolves member e-mails
    groupsForMembers: seq<TargetGroup>)    // main.py:239, matched for membership

  /** The writes of one run, phase by phase. */
  datatype Plan = Plan(
    groupCreates: seq<GroupCreate>,
    groupDeletes: seq<GroupDelete>,
    userCreates: seq<UserCreate>,
    userDeletes: seq<UserDelete>,
    memberUpdates: seq<MemberUpdate>)

  function OperationCount(p: Plan): nat
  {
    |p.groupCreates| + |p.groupDeletes| + |p.userCreates| + |p.userDeletes| + |p.memberUpdates|
  }

  predicate IsEmpty(p: Plan)
  {
    p.groupCreates == [] && p.groupDeletes == [] && p.userCreates == [] && p.userDeletes == [] && p.memberUpdates == []
  }

  /** The plan for classified source records: users are deduplicated first
      and the deduplicated list feeds the user phases and the membership. */
  function MakePlan(src: Principals, snaps: Snapshots): (p: Plan)
    ensures forall c :: c in p.groupCreates ==>
              !NameOnTarget(snaps.initialGroups, c.displayName) && exists g :: g in src.groups && g.name == c.displayName
    ensures forall d :: d in p.groupDeletes ==> !HasGroupName(src.groups, d.name)
    ensures forall c :: c in p.userCreates ==>
              !EmailOnTarget(snaps.initialUsers, c.userName) && exists u :: u in src.users && u.email == c.userName
    ensures forall i, j :: 0 <= i < j < |p.userCreates| ==> p.userCreates[i].userName != p.userCreates[j].userName
    ensures forall d :: d in p.userDeletes ==> !HasEmail(src.users, d.email)
    ensures forall m :: m in p.memberUpdates ==> exists t :: t in snaps.groupsForMembers && t.id == m.id
    ensures forall m, id :: m in p.memberUpdates && id in m.members ==>
              exists t :: t in snaps.usersAfterDeletes && t.id == id
  {
    var users := Dedup(src.users);
    var plan := Plan(
      GroupCreates(src.groups, snaps.initialGroups),
      GroupDeletes(snaps.groupsAfterCreates, src.groups),
      UserCreates(users, snaps.initialUsers),
      UserDeletes(snaps.usersAfterCreates, users),
      MemberUpdates(src.groups, users, snaps.usersAfterDeletes, snaps.groupsForMembers));
    UserCreatesDistinct(users, snaps.initialUsers);
    UserCreatesFromSource(src.users, snaps.initialUsers);
    UserDeletesSpareSource(snaps.usersAfterCreates, src.users);
    UpdatesTargetReadGroups(src.groups, users, snaps.usersAfterDeletes, snaps.groupsForMembers);
    UpdatesListReadUsers(src.groups, users, snaps.usersAfterDeletes, snaps.groupsForMembers);
    plan
  }

  /** Every user create names an e-mail of the raw source list. */
  lemma UserCreatesFromSource(srcUsers: seq<User>, target: seq<TargetUser>)
    ensures forall c :: c in UserCreates(Dedup(srcUsers), target) ==> exists u :: u in srcUsers && u.email == c.userName
  {
    var users := Dedup(srcUsers);
    forall c | c in UserCreates(users, target)
      ensures exists u :: u in srcUsers && u.email == c.userName
    {
      var u :| u in users && !EmailOnTarget(target, u.email) && c == UserPayload(u);
      assert u.email in Emails(srcUsers);
    }
  }

  /** No user delete hits an e-mail of the raw source list. */
  lemma UserDeletesSpareSource(target: seq<TargetUser>, srcUsers: seq<User>)
    ensures forall d :: d in UserDeletes(target, Dedup(srcUsers)) ==> !HasEmail(srcUsers, d.email)
  {
    forall d | d in UserDeletes(target, Dedup(srcUsers))
      ensures !HasEmail(srcUsers, d.email)
    {
      HasEmailDedup(srcUsers, d.email);
    }
  }

  /** Every member update targets a group of the read it was matched in. */
  lemma UpdatesTargetReadGroups(groups: seq<Group>, users: seq<User>, tusers: seq<TargetUser>, tgroups: seq<TargetGroup>)
    ensures forall m :: m in MemberUpdates(groups, users, tusers, tgroups) ==> exists t :: t in tgroups && t.id == m.id
  {
    forall m | m in MemberUpdates(groups, users, tusers, tgroups)
      ensures exists t :: t in tgroups && t.id == m.id
    {
      var g :| g in groups && MemberUpdateFor(g, users, tusers, tgroups) == Some(m);
      var i :| 0 <= i < |tgroups| && tgroups[i].id == m.id;
      assert tgroups[i] in tgroups;
    }
  }

  /** Every member id an update lists is the id of a user of the read it resolved against. */
  lemma UpdatesListReadUsers(groups: seq<Group>, users: seq<User>, tusers: seq<TargetUser>, tgroups: seq<TargetGroup>)
    ensures forall m, id :: m in MemberUpdates(groups, users, tusers, tgroups) && id in m.members ==>
              exists t :: t in tusers && t.id == id
  {
    forall m, id | m in MemberUpdates(groups, users, tusers, tgroups) && id in m.members
      ensures exists t :: t in tusers && t.id == id
    {
      var g :| g in groups && MemberUpdateFor(g, users, tusers, tgroups) == Some(m);
      assert id in Desired(g, users, tusers);
    }
  }

  /** How a run ends: without doing anything, or with a plan to apply. */
  datatype Outcome = NoServicePrincipal | NoAssignments | Planned(plan: Plan)

  function OutcomeCount(o: Outcome): nat
  {
    if o.Planned? then OperationCount(o.plan) else 0
  }

  /** A run: `servicePrincipals` is what the lookup of the application
      returned and `assignments` what the assignment listing of the first of
      them returned, each with its fetched object and members. */
  function Run(servicePrincipals: seq<string>, assignments: seq<Assignment>, snaps: Snapshots): (o: Outcome)
    ensures servicePrincipals == [] <==> o == NoServicePrincipal
    ensures servicePrincipals != [] && assignments == [] <==> o == NoAssignments
    ensures o.Planned? ==> o.plan == MakePlan(Classify(assignments), snaps)
    ensures (servicePrincipals == [] || assignments == []) ==> OutcomeCount(o) == 0
  {
    if servicePrincipals == [] then NoServicePrincipal
    else if assignments == [] then NoAssignments
    else Planned(MakePlan(Classify(assignments), snaps))
  }

  // ------------------------------------------------------------ emptiness

  lemma GroupCreatesEmpty(groups: seq<Group>, target: seq<TargetGroup>)
    ensures GroupCreates(groups, target) == [] <==> forall g :: g in groups ==> NameOnTarget(target, g.name)
  {
    var r := GroupCreates(groups, target);
    if r != [] {
      assert r[0] in r;
    }
  }

  lemma GroupDeletesEmpty(target: seq<TargetGroup>, groups: seq<Group>)
    ensures GroupDeletes(target, groups) == [] <==> forall t :: t in target ==> HasGroupName(groups, t.name)
  {
    var r := GroupDeletes(target, groups);
    if r != [] {
      assert r[0] in r;
    }
  }

  lemma UserCreatesEmpty(users: seq<User>, target: seq<TargetUser>)
    ensures UserCreates(users, target) == [] <==> forall u :: u in users ==> EmailOnTarget(target, u.email)
  {
    var r := UserCreates(users, target);
    if r != [] {
      assert r[0] in r;
    }
  }

  lemma UserDeletesEmpty(target: seq<TargetUser>, users: seq<User>)
    ensures UserDeletes(target, users) == [] <==> forall t :: t in target ==> HasEmail(users, t.email)
  {
    var r := UserDeletes(target, users);
    if r != [] {
      assert r[0] in r;
    }
  }

  lemma MemberUpdatesEmpty(groups: seq<Group>, users: seq<User>, tusers: seq<TargetUser>, tgroups: seq<TargetGroup>)
    ensures MemberUpdates(groups, users, tusers, tgroups) == [] <==>
              forall g :: g in groups ==> MembershipSettled(g, users, tusers, tgroups)
  {
    var r := MemberUpdates(groups, users, tusers, tgroups);
    if r != [] {
      assert r[0] in r;
    }
  }

  /** The plan is empty exactly when each phase finds nothing to do in the
      read it consults. */
  lemma PlanEmptyIff(src: Principals, snaps: Snapshots)
    ensures IsEmpty(MakePlan(src, snaps)) <==>
      && (forall g :: g in src.groups ==> NameOnTarget(snaps.initialGroups, g.name))
      && (forall t :: t in snaps.groupsAfterCreates ==> HasGroupName(src.groups, t.name))
      && (forall u :: u in src.users ==> EmailOnTarget(snaps.initialUsers, u.email))
      && (forall t :: t in snaps.usersAfterCreates ==> HasEmail(src.users, t.email))
      && (forall g :: g in src.groups ==> MembershipSettled(g, Dedup(src.users), snaps.usersAfterDeletes, snaps.groupsForMembers))
  {
    var users := Dedup(src.users);
    var p := MakePlan(src, snaps);
    assert p.groupCreates == GroupCreates(src.groups, snaps.initialGroups);
    assert p.groupDeletes == GroupDeletes(snaps.groupsAfterCreates, src.groups);
    assert p.userCreates == UserCreates(users, snaps.initialUsers);
    assert p.userDeletes == UserDeletes(snaps.usersAfterCreates, users);
    assert p.memberUpdates == MemberUpdates(src.groups, users, snaps.usersAfterDeletes, snaps.groupsForMembers);
    GroupCreatesEmpty(src.groups, snaps.initialGroups);
    GroupDeletesEmpty(snaps.groupsAfterCreates, src.groups);
    UserCreatesEmpty(users, snaps.initialUsers);
    UserDeletesEmpty(snaps.usersAfterCreates, users);
    MemberUpdatesEmpty(src.groups, users, snaps.usersAfterDeletes, snaps.groupsForMembers);
    SourceCoveredDedup(src.users, snaps.initialUsers);
    TargetCoveredDedup(snaps.usersAfterCreates, src.users);
  }

  /** Whether every source e-mail is on the target does not depend on deduplication. */
  lemma SourceCoveredDedup(users: seq<User>, target: seq<TargetUser>)
    ensures (forall u :: u in Dedup(users) ==> EmailOnTarget(target, u.email)) <==>
            (forall u :: u in users ==> EmailOnTarget(target, u.email))
  {
    assert Emails(Dedup(users)) == Emails(users);
    if forall u :: u in Dedup(users) ==> EmailOnTarget(target, u.email) {
      forall u | u in users
        ensures EmailOnTarget(target, u.email)
      {
        assert u.email in Emails(Dedup(users));
      }
    }
  }

  /** Whether every target e-mail is a source e-mail does not depend on deduplication. */
  lemma TargetCoveredDedup(target: seq<TargetUser>, users: seq<User>)
    ensures (forall t :: t in target ==> HasEmail(Dedup(users), t.email)) <==>
            (forall t :: t in target ==> HasEmail(users, t.email))
  {
    forall t | t in target
      ensures HasEmail(Dedup(users), t.email) <==> HasEmail(users, t.email)
    {
      HasEmailDedup(users, t.email);
    }
  }

  /** Every read a run takes sees the same target state: what happens when
      the run has nothing to write. */
  predicate Steady(snaps: Snapshots)
  {
    && snaps.usersAfterCreates == snaps.initialUsers
    && snaps.usersAfterDeletes == snaps.initialUsers
    && snaps.groupsAfterCreates == snaps.initialGroups
    && snaps.groupsForMembers == snaps.initialGroups
  }

  /** The target mirrors the source: the same group names and the same
      e-mails as sets, and every matched group has its desired members. */
  predicate Converged(src: Principals, tusers: seq<TargetUser>, tgroups: seq<TargetGroup>)
  {
    && (set t | t in tgroups :: t.name) == (set g | g in src.groups :: Some(g.name))
    && (set t | t in tusers :: t.email) == (set u | u in src.users :: Some(u.email))
    && forall g :: g in src.groups ==> MembershipSettled(g, Dedup(src.users), tusers, tgroups)
  }

  /** Idempotence: against a target that stays as it is, the plan is empty
      exactly when the target has converged to the source. */
  lemma ConvergedIffEmptyPlan(src: Principals, snaps: Snapshots)
    requires Steady(snaps)
    ensures IsEmpty(MakePlan(src, snaps)) <==> Converged(src, snaps.initialUsers, snaps.initialGroups)
  {
    PlanEmptyIff(src, snaps);
    GroupNamesAsSets(src.groups, snaps.initialGroups);
    EmailsAsSets(src.users, snaps.initialUsers);
  }

  lemma GroupNamesAsSets(groups: seq<Group>, target: seq<TargetGroup>)
    ensures ((forall g :: g in groups ==> NameOnTarget(target, g.name)) &&
             (forall t :: t in target ==> HasGroupName(groups, t.name))) <==>
            (set t | t in target :: t.name) == (set g | g in groups :: Some(g.name))
  {
    var tNames, sNames := set t | t in target :: t.name, set g | g in groups :: Some(g.name);
    if forall g :: g in groups ==> NameOnTarget(target, g.name) {
      forall n | n in sNames
        ensures n in tNames
      {
        var g :| g in groups && n == Some(g.name);
        var t :| t in target && t.name == Some(g.name);
      }
    }
    if tNames == sNames {
      forall g | g in groups
        ensures NameOnTarget(target, g.name)
      {
        assert Some(g.name) in tNames;
      }
      forall t | t in target
        ensures HasGroupName(groups, t.name)
      {
        assert t.name in sNames;
      }
    }
  }

  lemma EmailsAsSets(users: seq<User>, target: seq<TargetUser>)
    ensures ((forall u :: u in users ==> EmailOnTarget(target, u.email)) &&
             (forall t :: t in target ==> HasEmail(users, t.email))) <==>
            (set t | t in target :: t.email) == (set u | u in users :: Some(u.email))
  {
    var tEmails, sEmails := set t | t in target :: t.email, set u | u in users :: Some(u.email);
    if forall u :: u in users ==> EmailOnTarget(target, u.email) {
      forall e | e in sEmails
        ensures e in tEmails
      {
        var u :| u in users && e == Some(u.email);
        var t :| t in target && t.email == Some(u.email);
      }
    }
    if tEmails == sEmails {
      forall u | u in users
        ensures EmailOnTarget(target, u.email)
      {
        assert Some(u.email) in tEmails;
      }
      forall t | t in target
        ensures HasEmail(users, t.email)
      {
        assert t.email in sEmails;
      }
    }
  }

  /** A second run against a target the first run has converged writes nothing. */
  lemma RunOnConvergedTargetIsEmpty(servicePrincipals: seq<string>, assignments: seq<Assignment>, snaps: Snapshots)
    requires Steady(snaps)
    requires Converged(Classify(assignments), snaps.initialUsers, snaps.initialGroups)
    ensures OutcomeCount(Run(servicePrincipals, assignments, snaps)) == 0
  {
    ConvergedIffEmptyPlan(Classify(assignments), snaps);
  }

  /** Assignments that are all neither users nor groups are not an early exit:
      the run then deletes every group and every user it reads back. */
  lemma UnrecognisedAssignmentsClearTarget(servicePrincipals: seq<string>, assignments: seq<Assignment>, snaps: Snapshots)
    requires servicePrincipals != [] && assignments != []
    requires forall a :: a in assignments ==> !IsUserObject(a.principal) && !IsGroupObject(a.principal)
    ensures Run(servicePrincipals, assignments, snaps).Planned?
    ensures |Run(servicePrincipals, assignments, snaps).plan.groupDeletes| == |snaps.groupsAfterCreates|
    ensures |Run(servicePrincipals, assignments, snaps).plan.userDeletes| == |snaps.usersAfterCreates|
    ensures Run(servicePrincipals, assignments, snaps).plan.groupCreates == []
    ensures Run(servicePrincipals, assignments, snaps).plan.userCreates == []
  {
    var src := Classify(assignments);
    NothingClassified(assignments);
    assert Dedup(src.users) == [];
    DeleteAllGroups(snaps.groupsAfterCreates);
    DeleteAllUsers(snaps.usersAfterCreates);
  }

  lemma {:induction false} NothingClassified(assignments: seq<Assignment>)
    requires forall a :: a in assignments ==> !IsUserObject(a.principal) && !IsGroupObject(a.principal)
    ensures Classify(assignments) == Principals([], [])
    decreases |assignments|
  {
    if assignments != [] {
      assert assignments[0] in assignments;
      NothingClassified(assignments[1..]);
    }
  }

  lemma {:induction false} DeleteAllGroups(target: seq<TargetGroup>)
    ensures |GroupDeletes(target, [])| == |target|
    decreases |target|
  {
    if target != [] {
      DeleteAllGroups(target[1..]);
    }
  }

  lemma {:induction false} DeleteAllUsers(target: seq<TargetUser>)
    ensures |UserDeletes(target, [])| == |target|
    decreases |target|
  {
    if target != [] {
      DeleteAllUsers(target[1..]);
    }
  }

  // ------------------------------------------------------------ ordering

  /** One write, tagged with its phase. */
  datatype Op =
    | CreateGroup(gc: GroupCreate)
    | DeleteGroup(gd: GroupDelete)
    | CreateUser(uc: UserCreate)
    | DeleteUser(ud: UserDelete)
    | ReplaceMembers(mu: MemberUpdate)

  function Phase(op: Op): nat
  {
    match op
    case CreateGroup(_) => 1
    case DeleteGroup(_) => 2
    case CreateUser(_) => 3
    case DeleteUser(_) => 4
    case ReplaceMembers(_) => 5
  }

  predicate PhaseSorted(ops: seq<Op>)
  {
    forall i, j :: 0 <= i < j < |ops| ==> Phase(ops[i]) <= Phase(ops[j])
  }

  /** Appending writes of phase `n` to sorted writes of phase at most `n`
      keeps them sorted. */
  lemma AppendPhase(x: seq<Op>, y: seq<Op>, n: nat)
    requires PhaseSorted(x) && forall i :: 0 <= i < |x| ==> Phase(x[i]) <= n
    requires forall i :: 0 <= i < |y| ==> Phase(y[i]) == n
    ensures PhaseSorted(x + y) && forall i :: 0 <= i < |x + y| ==> Phase((x + y)[i]) <= n
  {
  }

  /** The writes in the order the run issues them. */
  function Operations(p: Plan): (ops: seq<Op>)
    ensures |ops| == OperationCount(p)
    ensures PhaseSorted(ops)
  {
    var a := seq(|p.groupCreates|, i requires 0 <= i < |p.groupCreates| => CreateGroup(p.groupCreates[i]));
    var b := seq(|p.groupDeletes|, i requires 0 <= i < |p.groupDeletes| => DeleteGroup(p.groupDeletes[i]));
    var c := seq(|p.userCreates|, i requires 0 <= i < |p.userCreates| => CreateUser(p.userCreates[i]));
    var d := seq(|p.userDeletes|, i requires 0 <= i < |p.userDeletes| => DeleteUser(p.userDeletes[i]));
    var e := seq(|p.memberUpdates|, i requires 0 <= i < |p.memberUpdates| => ReplaceMembers(p.memberUpdates[i]));
    AppendPhase(a, b, 2);
    var ab := a + b;
    AppendPhase(ab, c, 3);
    var abc := ab + c;
    AppendPhase(abc, d, 4);
    var abcd := abc + d;
    AppendPhase(abcd, e, 5);
    abcd + e
  }

  /** A renamed source group (same id, new name) becomes a create of the new
      name followed, later in the run, by a delete of the old one. */
  lemma RenameIsCreateThenDelete(src: Principals, snaps: Snapshots, g: Group, stale: TargetGroup)
    requires g in src.groups && !NameOnTarget(snaps.initialGroups, g.name)
    requires stale in snaps.groupsAfterCreates && !HasGroupName(src.groups, stale.name)
    ensures exists i, j :: 0 <= i < j < |Operations(MakePlan(src, snaps))|
              && Operations(MakePlan(src, snaps))[i] == CreateGroup(GroupCreate(g.name, g.id))
              && Operations(MakePlan(src, snaps))[j] == DeleteGroup(GroupDelete(stale.id, stale.name))
  {
    var creates := GroupCreates(src.groups, snaps.initialGroups);
    var deletes := GroupDeletes(snaps.groupsAfterCreates, src.groups);
    assert GroupPayload(g) in creates;
    assert GroupDelete(stale.id, stale.name) in deletes;
    var i :| 0 <= i < |creates| && creates[i] == GroupPayload(g);
    var j :| 0 <= j < |deletes| && deletes[j] == GroupDelete(stale.id, stale.name);
    OperationsOrder(MakePlan(src, snaps), i, j);
  }

  /** Where each payload of the plan sits among the writes: the phases follow
      one another and each keeps the order its own phase computed. */
  lemma OperationsLayout(p: Plan)
    ensures forall k :: 0 <= k < |p.groupCreates| ==> Operations(p)[k] == CreateGroup(p.groupCreates[k])
    ensures forall k :: 0 <= k < |p.groupDeletes| ==>
              Operations(p)[|p.groupCreates| + k] == DeleteGroup(p.groupDeletes[k])
    ensures forall k :: 0 <= k < |p.userCreates| ==>
              Operations(p)[|p.groupCreates| + |p.groupDeletes| + k] == CreateUser(p.userCreates[k])
    ensures forall k :: 0 <= k < |p.userDeletes| ==>
              Operations(p)[|p.groupCreates| + |p.groupDeletes| + |p.userCreates| + k] == DeleteUser(p.userDeletes[k])
    ensures forall k :: 0 <= k < |p.memberUpdates| ==>
              Operations(p)[OperationCount(p) - |p.memberUpdates| + k] == ReplaceMembers(p.memberUpdates[k])
  {
    GroupCreatesBlock(p);
    GroupDeletesBlock(p);
    UserCreatesBlock(p);
    UserDeletesBlock(p);
    MemberUpdatesBlock(p);
  }

  lemma GroupCreatesBlock(p: Plan)
    ensures forall k :: 0 <= k < |p.groupCreates| ==> Operations(p)[k] == CreateGroup(p.groupCreates[k])
  {
  }

  lemma GroupDeletesBlock(p: Plan)
    ensures forall k :: 0 <= k < |p.groupDeletes| ==>
              Operations(p)[|p.groupCreates| + k] == DeleteGroup(p.groupDeletes[k])
  {
  }

  lemma UserCreatesBlock(p: Plan)
    ensures forall k :: 0 <= k < |p.userCreates| ==>
              Operations(p)[|p.groupCreates| + |p.groupDeletes| + k] == CreateUser(p.userCreates[k])
  {
  }

  lemma UserDeletesBlock(p: Plan)
    ensures forall k :: 0 <= k < |p.userDeletes| ==>
              Operations(p)[|p.groupCreates| + |p.groupDeletes| + |p.userCreates| + k] == DeleteUser(p.userDeletes[k])
  {
  }

  lemma MemberUpdatesBlock(p: Plan)
    ensures forall k :: 0 <= k < |p.memberUpdates| ==>
              Operations(p)[OperationCount(p) - |p.memberUpdates| + k] == ReplaceMembers(p.memberUpdates[k])
  {
  }

  lemma OperationsOrder(p: Plan, i: nat, j: nat)
    requires i < |p.groupCreates| && j < |p.groupDeletes|
    ensures i < |p.groupCreates| + j < |Operations(p)|
    ensures Operations(p)[i] == CreateGroup(p.groupCreates[i])
    ensures Operations(p)[|p.groupCreates| + j] == DeleteGroup(p.groupDeletes[j])
  {
    OperationsLayout(p);
  }
}

=== FILE: reconcile.dfy ===
/**
 * The five phases of the reconciliation (main.py:171-271). The two create
 * phases filter the source records against the first target read, the two
 * delete phases filter a later read against the source records, and the
 * membership phase consults two later reads, the users (main.py:233) and the
 * groups (main.py:239). Writes are represented by the payloads the phase
 * would send.
 */
module Reconcile {
  import opened Options
  import opened Directory
  import opened Normalize
  import opened Target
  import opened Seqs

  /** POST /Groups body: `displayName` and `externalId`. */
  datatype GroupCreate = GroupCreate(displayName: string, externalId: string)

  /** DELETE /Groups/{id}; the name is what gets reported. */
  datatype GroupDelete = GroupDelete(id: string, name: Option<string>)

  /** POST /Users body: user name, display name, external id, active flag,
      formatted/family/given name and the primary work e-mail. */
  datatype UserCreate = UserCreate(
    userName: string,
    displayName: string,
    externalId: string,
    active: bool,
    formatted: string,
    familyName: string,
    givenName: string,
    workEmail: string)

  /** DELETE /Users/{id}; the e-mail is what gets reported. */
  datatype UserDelete = UserDelete(id: string, email: Option<string>)

  /** PUT /Groups/{id} body: the group's own name and id and the complete new
      member list. */
  datatype MemberUpdate = MemberUpdate(id: string, displayName: Option<string>, members: seq<string>)

  /** Some source group carries the (possibly missing) name. */
  predicate HasGroupName(groups: seq<Group>, name: Option<string>)
  {
    exists g :: g in groups && Some(g.name) == name
  }

  /** Some source user carries the (possibly missing) e-mail. */
  predicate HasEmail(users: seq<User>, email: Option<string>)
  {
    exists u :: u in users && Some(u.email) == email
  }

  function GroupPayload(g: Group): GroupCreate
  {
    GroupCreate(g.name, g.id)
  }

  function UserPayload(u: User): UserCreate
  {
    UserCreate(u.email, u.completeName, u.externalId, true, u.completeName, u.lastName, u.firstName, u.email)
  }

  // ---------------------------------------------------------------- phase 1

  /** Group creates: every source group, in order and duplicates included,
      whose name no group of the initial target read carries. */
  function GroupCreates(groups: seq<Group>, target: seq<TargetGroup>): (r: seq<GroupCreate>)
    ensures |r| <= |groups|
    ensures forall c :: c in r <==> exists g :: g in groups && !NameOnTarget(target, g.name) && c == GroupPayload(g)
    ensures forall c :: c in r ==> !NameOnTarget(target, c.displayName)
  {
    if groups == [] then []
    else
      var rest := GroupCreates(groups[1..], target);
      assert forall g :: g in groups <==> g == groups[0] || g in groups[1..];
      if NameOnTarget(target, groups[0].name) then rest else [GroupPayload(groups[0])] + rest
  }

  lemma {:induction false} GroupCreatesAppend(a: seq<Group>, b: seq<Group>, target: seq<TargetGroup>)
    ensures GroupCreates(a + b, target) == GroupCreates(a, target) + GroupCreates(b, target)
    decreases |a|
  {
    if a == [] {
      assert a + b == b;
    } else {
      assert (a + b)[0] == a[0];
      assert (a + b)[1..] == a[1..] + b;
      GroupCreatesAppend(a[1..], b, target);
    }
  }

  // ---------------------------------------------------------------- phase 2

  /** Group deletes: every group of the target read taken after the creates
      whose name no source group carries. */
  function GroupDeletes(target: seq<TargetGroup>, groups: seq<Group>): (r: seq<GroupDelete>)
    ensures |r| <= |target|
    ensures forall d :: d in r <==> exists t :: t in target && !HasGroupName(groups, t.name) && d == GroupDelete(t.id, t.name)
    ensures forall d :: d in r ==> !HasGroupName(groups, d.name)
  {
    if target == [] then []
    else
      var rest := GroupDeletes(target[1..], groups);
      var t := target[0];
      assert forall x :: x in target <==> x == t || x in target[1..];
      if HasGroupName(groups, t.name) then rest else [GroupDelete(t.id, t.name)] + rest
  }

  lemma {:induction false} GroupDeletesAppend(a: seq<TargetGroup>, b: seq<TargetGroup>, groups: seq<Group>)
    ensures GroupDeletes(a + b, groups) == GroupDeletes(a, groups) + GroupDeletes(b, groups)
    decreases |a|
  {
    if a == [] {
      assert a + b == b;
    } else {
      assert (a + b)[0] == a[0];
      assert (a + b)[1..] == a[1..] + b;
      GroupDeletesAppend(a[1..], b, groups);
    }
  }

  // ---------------------------------------------------------------- phase 3

  /** User creates: every deduplicated source user whose e-mail no user of the
      initial target read lists. */
  function UserCreates(users: seq<User>, target: seq<TargetUser>): (r: seq<UserCreate>)
    ensures |r| <= |users|
    ensures forall c :: c in r <==> exists u :: u in users && !EmailOnTarget(target, u.email) && c == UserPayload(u)
    ensures forall c :: c in r ==> !EmailOnTarget(target, c.userName)
  {
    if users == [] then []
    else
      var rest := UserCreates(users[1..], target);
      assert forall u :: u in users <==> u == users[0] || u in users[1..];
      if EmailOnTarget(target, users[0].email) then rest else [UserPayload(users[0])] + rest
  }

  lemma {:induction false} UserCreatesAppend(a: seq<User>, b: seq<User>, target: seq<TargetUser>)
    ensures UserCreates(a + b, target) == UserCreates(a, target) + UserCreates(b, target)
    decreases |a|
  {
    if a == [] {
      assert a + b == b;
    } else {
      assert (a + b)[0] == a[0];
      assert (a + b)[1..] == a[1..] + b;
      UserCreatesAppend(a[1..], b, target);
    }
  }

  /** Over users with distinct e-mails, no user name is posted twice. */
  lemma {:induction false} UserCreatesDistinct(users: seq<User>, target: seq<TargetUser>)
    requires DistinctEmails(users)
    ensures forall i, j :: 0 <= i < j < |UserCreates(users, target)| ==>
              UserCreates(users, target)[i].userName != UserCreates(users, target)[j].userName
    decreases |users|
  {
    if users != [] {
      var tail := users[1..];
      assert DistinctEmails(tail);
      UserCreatesDistinct(tail, target);
      var rest := UserCreates(tail, target);
      forall c | c in rest
        ensures c.userName != users[0].email
      {
        var u :| u in tail && !EmailOnTarget(target, u.email) && c == UserPayload(u);
        var k :| 0 <= k < |tail| && tail[k] == u;
        assert users[k + 1] == u;
      }
    }
  }

  // ---------------------------------------------------------------- phase 4

  /** User deletes: every user of the target read taken after the creates whose
      e-mail no deduplicated source user has. */
  function UserDeletes(target: seq<TargetUser>, users: seq<User>): (r: seq<UserDelete>)
    ensures |r| <= |target|
    ensures forall d :: d in r <==> exists t :: t in target && !HasEmail(users, t.email) && d == UserDelete(t.id, t.email)
    ensures forall d :: d in r ==> !HasEmail(users, d.email)
  {
    if target == [] then []
    else
      var rest := UserDeletes(target[1..], users);
      var t := target[0];
      assert forall x :: x in target <==> x == t || x in target[1..];
      if HasEmail(users, t.email) then rest else [UserDelete(t.id, t.email)] + rest
  }

  lemma {:induction false} UserDeletesAppend(a: seq<TargetUser>, b: seq<TargetUser>, users: seq<User>)
    ensures UserDeletes(a + b, users) == UserDeletes(a, users) + UserDeletes(b, users)
    decreases |a|
  {
    if a == [] {
      assert a + b == b;
    } else {
      assert (a + b)[0] == a[0];
      assert (a + b)[1..] == a[1..] + b;
      UserDeletesAppend(a[1..], b, users);
    }
  }

  /** Matching by e-mail only looks at the set of e-mails, so the deduplicated
      and the raw user lists delete the same target users. */
  lemma HasEmailDedup(users: seq<User>, email: Option<string>)
    ensures HasEmail(Dedup(users), email) <==> HasEmail(users, email)
  {
    assert Emails(Dedup(users)) == Emails(users);
    if HasEmail(users, email) {
      var u :| u in users && Some(u.email) == email;
      assert u.email in Emails(Dedup(users));
    }
  }

  // ---------------------------------------------------------------- phase 5

  /** The deduplicated users tagged with `groupId` (main.py:236 and 243). */
  function MembersOf(users: seq<User>, groupId: string): (r: seq<User>)
    ensures |r| <= |users|
    ensures forall u :: u in r <==> u in users && u.group == Some(groupId)
  {
    if users == [] then []
    else
      var rest := MembersOf(users[1..], groupId);
      assert forall u :: u in users <==> u == users[0] || u in users[1..];
      if users[0].group == Some(groupId) then [users[0]] + rest else rest
  }

  /** Members keep the order of the deduplicated list, repeats included. */
  lemma {:induction false} MembersOfAppend(a: seq<User>, b: seq<User>, groupId: string)
    ensures MembersOf(a + b, groupId) == MembersOf(a, groupId) + MembersOf(b, groupId)
    ensures |a| == 1 ==> MembersOf(a, groupId) == (if a[0].group == Some(groupId) then [a[0]] else [])
    decreases |a|
  {
    if a == [] {
      assert a + b == b;
    } else {
      assert (a + b)[0] == a[0];
      assert (a + b)[1..] == a[1..] + b;
      MembersOfAppend(a[1..], b, groupId);
      ConcatAssoc([a[0]], MembersOf(a[1..], groupId), MembersOf(b, groupId));
    }
  }

  /** The id of the first target user listing `email`, if any. */
  function ResolveEmail(target: seq<TargetUser>, email: string): Option<string>
  {
    match FindUserByEmail(target, email)
    case Some(i) => Some(target[i].id)
    case None => None
  }

  /** The member ids a group should have: for each member in order, the id of
      the first target user with its e-mail; unresolved members are dropped. */
  function DesiredIds(members: seq<User>, target: seq<TargetUser>): (ids: seq<string>)
    ensures |ids| <= |members|
    ensures forall id :: id in ids <==> exists u :: u in members && ResolveEmail(target, u.email) == Some(id)
    ensures forall id :: id in ids ==> exists t :: t in target && t.id == id && HasEmail(members, t.email)
  {
    if members == [] then []
    else
      var rest := DesiredIds(members[1..], target);
      var u := members[0];
      assert forall x :: x in members <==> x == u || x in members[1..];
      match FindUserByEmail(target, u.email)
      case None => rest
      case Some(i) =>
        assert target[i] in target && HasEmail(members, target[i].email);
        [target[i].id] + rest
  }

  /** The ids one member contributes: the id it resolves to, or none. */
  lemma DesiredIdsOne(u: User, target: seq<TargetUser>)
    ensures DesiredIds([u], target) == (match ResolveEmail(target, u.email)
                                        case Some(id) => [id]
                                        case None => [])
  {
    assert [u][1..] == [];
  }

  /** Desired ids follow member order, one id per resolving member, so a
      target id appears as often as members resolve to it. */
  lemma {:induction false} DesiredIdsAppend(a: seq<User>, b: seq<User>, target: seq<TargetUser>)
    ensures DesiredIds(a + b, target) == DesiredIds(a, target) + DesiredIds(b, target)
    decreases |a|
  {
    if a == [] {
      assert a + b == b;
    } else {
      var u, rest := a[0], a[1..];
      assert a == [u] + rest;
      assert a + b == [u] + (rest + b);
      DesiredIdsAppend(rest, b, target);
      DesiredIdsCons(u, rest + b, target);
      DesiredIdsCons(u, rest, target);
      ConcatAssoc(DesiredIds([u], target), DesiredIds(rest, target), DesiredIds(b, target));
    }
  }

  /** One step of DesiredIds: the first member's ids, then the rest's. */
  lemma DesiredIdsCons(u: User, rest: seq<User>, target: seq<TargetUser>)
    ensures DesiredIds([u] + rest, target) == DesiredIds([u], target) + DesiredIds(rest, target)
  {
    assert ([u] + rest)[0] == u && ([u] + rest)[1..] == rest;
    assert [u][1..] == [];
    assert DesiredIds([u][1..], target) == [];
    match FindUserByEmail(target, u.email) {
      case None =>
        assert DesiredIds([u], target) == [];
      case Some(i) =>
        assert DesiredIds([u], target) == [target[i].id];
    }
  }

  function SetOf(s: seq<string>): set<string>
  {
    set x | x in s
  }

  /** The first target group with the source group's name (main.py:244). */
  function MatchedGroup(g: Group, target: seq<TargetGroup>): (r: Option<TargetGroup>)
    ensures r.Some? ==> r.value in target && r.value.name == Some(g.name)
    ensures r.Some? ==> exists i :: 0 <= i < |target| && target[i] == r.value
                          && forall j :: 0 <= j < i ==> target[j].name != Some(g.name)
    ensures r.None? <==> !NameOnTarget(target, g.name)
  {
    match FindGroupByName(target, g.name)
    case Some(i) => Some(target[i])
    case None => None
  }

  function Desired(g: Group, users: seq<User>, tusers: seq<TargetUser>): seq<string>
  {
    DesiredIds(MembersOf(users, g.id), tusers)
  }

  /** The matched target group already has exactly the desired members, as a
      set; a group with no match counts as settled because it is skipped. */
  predicate MembershipSettled(g: Group, users: seq<User>, tusers: seq<TargetUser>, tgroups: seq<TargetGroup>)
  {
    match MatchedGroup(g, tgroups)
    case None => true
    case Some(t) => SetOf(t.members) == SetOf(Desired(g, users, tusers))
  }

  /** Membership replacement for one source group: issued iff its matched
      target group's member set differs from the desired set, carrying the
      full desired list. */
  function MemberUpdateFor(g: Group, users: seq<User>, tusers: seq<TargetUser>, tgroups: seq<TargetGroup>): (r: Option<MemberUpdate>)
    ensures r.None? <==> MembershipSettled(g, users, tusers, tgroups)
    ensures r.Some? ==> r.value.members == Desired(g, users, tusers)
    ensures r.Some? ==> exists i :: 0 <= i < |tgroups| && tgroups[i].name == Some(g.name)
                          && (forall j :: 0 <= j < i ==> tgroups[j].name != Some(g.name))
                          && tgroups[i].id == r.value.id && tgroups[i].name == r.value.displayName
                          && SetOf(tgroups[i].members) != SetOf(r.value.members)
  {
    match MatchedGroup(g, tgroups)
    case None => None
    case Some(t) =>
      var desired := Desired(g, users, tusers);
      if SetOf(t.members) != SetOf(desired) then Some(MemberUpdate(t.id, t.name, desired)) else None
  }

  /** Membership replacements for all source groups, in source order. */
  function MemberUpdates(groups: seq<Group>, users: seq<User>, tusers: seq<TargetUser>, tgroups: seq<TargetGroup>): (r: seq<MemberUpdate>)
    ensures |r| <= |groups|
    ensures forall m :: m in r <==> exists g :: g in groups && MemberUpdateFor(g, users, tusers, tgroups) == Some(m)
  {
    if groups == [] then []
    else
      var rest := MemberUpdates(groups[1..], users, tusers, tgroups);
      assert forall g :: g in groups <==> g == groups[0] || g in groups[1..];
      match MemberUpdateFor(groups[0], users, tusers, tgroups)
      case None => rest
      case Some(m) => [m] + rest
  }

  lemma {:induction false} MemberUpdatesAppend(a: seq<Group>, b: seq<Group>, users: seq<User>, tusers: seq<TargetUser>, tgroups: seq<TargetGroup>)
    ensures MemberUpdates(a + b, users, tusers, tgroups) == MemberUpdates(a, users, tusers, tgroups) + MemberUpdates(b, users, tusers, tgroups)
    decreases |a|
  {
    if a == [] {
      assert a + b == b;
    } else {
      assert (a + b)[0] == a[0];
      assert (a + b)[1..] == a[1..] + b;
      MemberUpdatesAppend(a[1..], b, users, tusers, tgroups);
    }
  }

  /** The order of a target group's current members never causes an update:
      two reads listing the same member ids in any order decide alike. */
  lemma MemberOrderIrrelevant(g: Group, users: seq<User>, tusers: seq<TargetUser>, tgroups: seq<TargetGroup>, reordered: seq<TargetGroup>)
    requires |reordered| == |tgroups|
    requires forall i :: 0 <= i < |tgroups| ==>
               reordered[i].name == tgroups[i].name && reordered[i].id == tgroups[i].id
               && SetOf(reordered[i].members) == SetOf(tgroups[i].members)
    ensures MemberUpdateFor(g, users, tusers, reordered).None? <==> MemberUpdateFor(g, users, tusers, tgroups).None?
    ensures MemberUpdateFor(g, users, tusers, reordered).Some? ==>
              MemberUpdateFor(g, users, tusers, reordered) == MemberUpdateFor(g, users, tusers, tgroups)
  {
    FindGroupByNameAlike(tgroups, reordered, g.name);
  }

  lemma {:induction false} FindGroupByNameAlike(a: seq<TargetGroup>, b: seq<TargetGroup>, name: string)
    requires |a| == |b|
    requires forall i :: 0 <= i < |a| ==> a[i].name == b[i].name
    ensures FindGroupByName(a, name) == FindGroupByName(b, name)
    decreases |a|
  {
    if a != [] {
      FindGroupByNameAlike(a[1..], b[1..], name);
    }
  }

  /** A deduplicated list gives each e-mail to at most one group's desired
      members: a user reached through several groups counts toward the group
      it was first seen under only. */
  lemma EmailInOneGroupOnly(users: seq<User>, g1: string, g2: string, u1: User, u2: User)
    requires g1 != g2
    requires u1 in MembersOf(Dedup(users), g1) && u2 in MembersOf(Dedup(users), g2)
    ensures u1.email != u2.email
  {
    var d := Dedup(users);
    var i :| 0 <= i < |d| && d[i] == u1;
    var j :| 0 <= j < |d| && d[j] == u2;
    assert i != j;
  }

  /** Within one group, of two members sharing an e-mail the one listed first
      is the record deduplication keeps. */
  lemma GroupKeepsFirstListedMember(x: Assignment, m1: DirObject, m2: DirObject)
    requires IsGroupAssignment(x) && x.members == [m1, m2]
    requires IsUserObject(m1) && IsUserObject(m2)
    requires ParseUser(m1).email == ParseUser(m2).email
    ensures Dedup(Classify([x]).users) == [TagUser(m1, x.principalId)]
  {
    var id := x.principalId;
    var u1, u2 := TagUser(m1, id), TagUser(m2, id);
    MemberUsersAppend([m1], [m2], id);
    MemberUsersAppend([m2], [], id);
    assert [m1] + [m2] == x.members;
    assert MemberUsers(x.members, id) == [u1, u2];
    ClassifyOne(x);
    DedupSameEmailPair(u1, u2);
  }

  /** Of two records sharing an e-mail, deduplication keeps the first. */
  lemma DedupSameEmailPair(a: User, b: User)
    requires a.email == b.email
    ensures Dedup([a, b]) == [a]
  {
    assert [a, b][..1] == [a];
    assert [a][..0] == [];
    assert Dedup([a]) == [a];
    assert Emails([a]) == {a.email};
  }

  /** The same user found under two groups ends up a member of the first only. */
  lemma SecondGroupLosesSharedUser(u: User, g1: string, g2: string)
    requires g1 != g2
    ensures MembersOf(Dedup([u.(group := Some(g1)), u.(group := Some(g2))]), g1) == [u.(group := Some(g1))]
    ensures MembersOf(Dedup([u.(group := Some(g1)), u.(group := Some(g2))]), g2) == []
  {
    var a := u.(group := Some(g1));
    DedupSameEmailPair(a, u.(group := Some(g2)));
    assert [a][1..] == [];
    assert MembersOf([a], g1) == [a] + MembersOf([], g1);
    assert MembersOf([a], g2) == MembersOf([], g2);
  }

  /** A user assigned directly and seen before the group that also holds it
      keeps its untagged record, so it is a member of no group. */
  lemma DirectUserJoinsNoGroup(u: User, g: string)
    ensures MembersOf(Dedup([u.(group := None), u.(group := Some(g))]), g) == []
  {
    var a := u.(group := None);
    DedupSameEmailPair(a, u.(group := Some(g)));
    assert [a][1..] == [];
    assert MembersOf([a], g) == MembersOf([], g);
  }
}

=== FILE: seqs.dfy ===
/** Sequence helpers shared by the model. */
module Seqs {

  /** The concatenation of `f` applied to each element, in order. */
  function FlatMap<A, B>(s: seq<A>, f: A -> seq<B>): seq<B>
  {
    if s == [] then [] else f(s[0]) + FlatMap(s[1..], f)
  }

  lemma {:induction false} FlatMapAppend<A, B>(a: seq<A>, b: seq<A>, f: A -> seq<B>)
    ensures FlatMap(a + b, f) == FlatMap(a, f) + FlatMap(b, f)
    decreases |a|
  {
    if a == [] {
      assert a + b == b;
    } else {
      assert (a + b)[0] == a[0];
      assert (a + b)[1..] == a[1..] + b;
      FlatMapAppend(a[1..], b, f);
    }
  }

  lemma ConcatAssoc<T>(x: seq<T>, y: seq<T>, z: seq<T>)
    ensures x + (y + z) == (x + y) + z
  {
  }
}

=== FILE: target.dfy ===
/**
 * The target directory as a SCIM read returns it (main.py:148-166), and the
 * first-match lookups the reconciliation performs on such a read.
 */
module Target {
  import opened Options

  /** A SCIM user resource: display name, first listed e-mail, and id. The
      display name and e-mail may be missing, and then never equal a source
      string. */
  datatype TargetUser = TargetUser(displayName: Option<string>, email: Option<string>, id: string)

  /** A SCIM group resource: display name, id and the ids of its members. */
  datatype TargetGroup = TargetGroup(name: Option<string>, id: string, members: seq<string>)

  predicate EmailOnTarget(users: seq<TargetUser>, email: string)
  {
    exists t :: t in users && t.email == Some(email)
  }

  predicate NameOnTarget(groups: seq<TargetGroup>, name: string)
  {
    exists t :: t in groups && t.name == Some(name)
  }

  /** Index of the first target user listing `email`. */
  function FindUserByEmail(users: seq<TargetUser>, email: string): (r: Option<nat>)
    ensures r.Some? ==> r.value < |users| && users[r.value].email == Some(email)
    ensures r.Some? ==> forall j :: 0 <= j < r.value ==> users[j].email != Some(email)
    ensures r.None? <==> !EmailOnTarget(users, email)
  {
    if users == [] then None
    else if users[0].email == Some(email) then Some(0)
    else
      match FindUserByEmail(users[1..], email)
      case None =>
        assert forall t :: t in users ==> t == users[0] || t in users[1..];
        None
      case Some(i) => Some(i + 1)
  }

  /** Index of the first target group named `name`. */
  function FindGroupByName(groups: seq<TargetGroup>, name: string): (r: Option<nat>)
    ensures r.Some? ==> r.value < |groups| && groups[r.value].name == Some(name)
    ensures r.Some? ==> forall j :: 0 <= j < r.value ==> groups[j].name != Some(name)
    ensures r.None? <==> !NameOnTarget(groups, name)
  {
    if groups == [] then None
    else if groups[0].name == Some(name) then Some(0)
    else
      match FindGroupByName(groups[1..], name)
      case None =>
        assert forall t :: t in groups ==> t == groups[0] || t in groups[1..];
        None
      case Some(i) => Some(i + 1)
  }
}

=== FILE: text.dfy ===
/**
 * The string handling of `parse_user`: Python's `str.split()` with no argument,
 * `" ".join`, the local part of an e-mail address, and the substring test used
 * on directory type tags.
 */
module Text {

  /** The code points Python's `str.isspace()` accepts, which are exactly the
      separators of `str.split()` called without an argument. */
  predicate IsSpace(c: char)
  {
    var n := c as int;
    || 0x09 <= n <= 0x0D
    || 0x1C <= n <= 0x20
    || n == 0x85 || n == 0xA0 || n == 0x1680
    || 0x2000 <= n <= 0x200A
    || n == 0x2028 || n == 0x2029 || n == 0x202F || n == 0x205F || n == 0x3000
  }

  predicate NoSpace(s: string)
  {
    forall i :: 0 <= i < |s| ==> !IsSpace(s[i])
  }

  predicate AllSpace(s: string)
  {
    forall i :: 0 <= i < |s| ==> IsSpace(s[i])
  }

  /** A token of `str.split()`: non-empty and free of whitespace. */
  predicate IsWord(w: string)
  {
    w != [] && NoSpace(w)
  }

  /** `s` without its leading whitespace. */
  function TrimStart(s: string): (r: string)
    ensures |r| <= |s|
    ensures r == [] || !IsSpace(r[0])
  {
    if s != [] && IsSpace(s[0]) then TrimStart(s[1..]) else s
  }

  /** TrimStart removes a whitespace-only prefix and nothing else. */
  lemma {:induction false} TrimStartParts(s: string)
    ensures s == s[..|s| - |TrimStart(s)|] + TrimStart(s)
    ensures AllSpace(s[..|s| - |TrimStart(s)|])
    decreases |s|
  {
    if s != [] && IsSpace(s[0]) {
      TrimStartParts(s[1..]);
      var k := |s| - |TrimStart(s)|;
      assert s[1..][..k - 1] == s[1..k];
    }
  }

  /** The longest whitespace-free prefix of `s`. */
  function LeadingWord(s: string): (w: string)
    ensures |w| <= |s|
    ensures s != [] && !IsSpace(s[0]) ==> w != []
  {
    if s != [] && !IsSpace(s[0]) then [s[0]] + LeadingWord(s[1..]) else []
  }

  /** LeadingWord is a whitespace-free prefix that stops at whitespace or the end. */
  lemma {:induction false} LeadingWordParts(s: string)
    ensures LeadingWord(s) <= s
    ensures NoSpace(LeadingWord(s))
    ensures |LeadingWord(s)| < |s| ==> IsSpace(s[|LeadingWord(s)|])
    decreases |s|
  {
    if s != [] && !IsSpace(s[0]) {
      LeadingWordParts(s[1..]);
    }
  }

  /** Python's `s.split()`: the maximal whitespace-free runs of `s`, in order. */
  function Words(s: string): seq<string>
    decreases |s|
  {
    var t := TrimStart(s);
    if t == [] then [] else
      var w := LeadingWord(t);
      [w] + Words(t[|w|..])
  }

  /** Every token of `str.split()` is non-empty and free of whitespace. */
  lemma {:induction false} WordsAreWords(s: string)
    ensures forall i :: 0 <= i < |Words(s)| ==> IsWord(Words(s)[i])
    decreases |s|
  {
    var t := TrimStart(s);
    if t != [] {
      var w := LeadingWord(t);
      LeadingWordParts(t);
      WordsAreWords(t[|w|..]);
      assert Words(s) == [w] + Words(t[|w|..]);
    }
  }

  /** `str.split()` yields nothing exactly for empty or whitespace-only text. */
  lemma {:induction false} WordsEmpty(s: string)
    ensures Words(s) == [] <==> AllSpace(s)
  {
    var t := TrimStart(s);
    TrimStartParts(s);
    if t == [] {
      assert s == s[..|s| - |t|];
    } else {
      assert s[|s| - |t|] == t[0];
    }
  }

  /** Python's `" ".join(ws)`. */
  function JoinSpace(ws: seq<string>): string
  {
    if |ws| == 0 then ""
    else if |ws| == 1 then ws[0]
    else ws[0] + " " + JoinSpace(ws[1..])
  }

  /** The non-whitespace characters of `s`, in order. */
  function NonSpace(s: string): string
  {
    if s == [] then [] else (if IsSpace(s[0]) then [] else [s[0]]) + NonSpace(s[1..])
  }

  function Concat(ws: seq<string>): string
  {
    if ws == [] then [] else ws[0] + Concat(ws[1..])
  }

  lemma {:induction false} NonSpaceAppend(a: string, b: string)
    ensures NonSpace(a + b) == NonSpace(a) + NonSpace(b)
    decreases |a|
  {
    if a == [] {
      assert a + b == b;
    } else {
      assert (a + b)[1..] == a[1..] + b;
      NonSpaceAppend(a[1..], b);
    }
  }

  lemma {:induction false} NonSpaceOfAllSpace(s: string)
    requires AllSpace(s)
    ensures NonSpace(s) == []
    decreases |s|
  {
    if s != [] {
      NonSpaceOfAllSpace(s[1..]);
    }
  }

  lemma {:induction false} NonSpaceOfNoSpace(s: string)
    requires NoSpace(s)
    ensures NonSpace(s) == s
    decreases |s|
  {
    if s != [] {
      NonSpaceOfNoSpace(s[1..]);
      assert [s[0]] + s[1..] == s;
    }
  }

  /** Leading whitespace contributes no non-whitespace characters. */
  lemma {:induction false} NonSpaceTrimStart(s: string)
    ensures NonSpace(s) == NonSpace(TrimStart(s))
  {
    var t := TrimStart(s);
    TrimStartParts(s);
    NonSpaceAppend(s[..|s| - |t|], t);
    NonSpaceOfAllSpace(s[..|s| - |t|]);
  }

  /** The non-whitespace characters of `t` are its leading word followed by
      those of what comes after it. */
  lemma {:induction false} NonSpaceLeadingWord(t: string)
    ensures NonSpace(t) == LeadingWord(t) + NonSpace(t[|LeadingWord(t)|..])
  {
    var w := LeadingWord(t);
    LeadingWordParts(t);
    var rest := t[|w|..];
    assert t == w + rest;
    NonSpaceAppend(w, rest);
    NonSpaceOfNoSpace(w);
  }

  /** Splitting loses only whitespace: the tokens, glued together, are the
      non-whitespace characters of the input in their original order. */
  lemma {:induction false} WordsKeepNonSpace(s: string)
    ensures Concat(Words(s)) == NonSpace(s)
    decreases |s|
  {
    var t := TrimStart(s);
    NonSpaceTrimStart(s);
    if t != [] {
      var w := LeadingWord(t);
      var rest := t[|w|..];
      NonSpaceLeadingWord(t);
      WordsKeepNonSpace(rest);
      assert Words(s) == [w] + Words(rest);
      assert ([w] + Words(rest))[1..] == Words(rest);
    }
  }

  /** Given and family name as `parse_user` derives them from a display name. */
  datatype PersonName = PersonName(first: string, last: string)

  /** Putting a split name back together with a single space between the parts. */
  function Recompose(n: PersonName): string
  {
    if n.last == "" then n.first else n.first + " " + n.last
  }

  lemma {:induction false} JoinSpaceNonEmpty(ws: seq<string>)
    requires ws != [] && IsWord(ws[0])
    ensures JoinSpace(ws) != [] && JoinSpace(ws)[0] == ws[0][0]
  {
  }

  /** The first token and the remaining tokens joined by one space. */
  function SplitName(displayName: string): (n: PersonName)
    ensures NoSpace(n.first)
    ensures n.first == "" <==> AllSpace(displayName)
    ensures n.last == "" <==> |Words(displayName)| <= 1
    ensures |Words(displayName)| == 1 ==> n == PersonName(Words(displayName)[0], "")
    ensures Recompose(n) == JoinSpace(Words(displayName))
  {
    var names := Words(displayName);
    var first := if |names| > 0 then names[0] else "";
    var last := if |names| > 1 then JoinSpace(names[1..]) else "";
    WordsEmpty(displayName);
    WordsAreWords(displayName);
    if |names| > 1 then
      JoinSpaceNonEmpty(names[1..]);
      PersonName(first, last)
    else
      PersonName(first, last)
  }

  /** Splitting inverts joining: Python's `" ".join(ws).split() == ws` for tokens `ws`. */
  lemma {:induction false} WordsOfJoin(ws: seq<string>)
    requires forall i :: 0 <= i < |ws| ==> IsWord(ws[i])
    ensures Words(JoinSpace(ws)) == ws
    decreases |ws|
  {
    if |ws| <= 1 {
      WordsOfShortJoin(ws);
    } else {
      var rest := JoinSpace(ws[1..]);
      assert JoinSpace(ws) == ws[0] + " " + rest;
      WordsOfSeparated(ws[0], rest);
      WordsOfJoin(ws[1..]);
      assert [ws[0]] + ws[1..] == ws;
    }
  }

  lemma {:induction false} WordsOfShortJoin(ws: seq<string>)
    requires |ws| <= 1
    requires forall i :: 0 <= i < |ws| ==> IsWord(ws[i])
    ensures Words(JoinSpace(ws)) == ws
  {
    if |ws| == 1 {
      WordsOfWord(ws[0], "");
      assert ws[0] + "" == ws[0];
    }
  }

  /** A token, one space, then more text. */
  lemma {:induction false} WordsOfSeparated(w: string, rest: string)
    requires IsWord(w)
    ensures Words(w + " " + rest) == [w] + Words(rest)
  {
    assert w + " " + rest == w + (" " + rest);
    assert IsSpace((" " + rest)[0]);
    WordsOfWord(w, " " + rest);
    WordsSkipSpace(rest);
  }

  lemma {:induction false} WordsSkipSpace(s: string)
    ensures Words(" " + s) == Words(s)
  {
    assert (" " + s)[1..] == s;
    assert TrimStart(" " + s) == TrimStart(s);
  }

  /** The words of a token followed by text starting with whitespace or nothing. */
  lemma {:induction false} WordsOfWord(w: string, tail: string)
    requires IsWord(w)
    requires tail == [] || IsSpace(tail[0])
    ensures Words(w + tail) == [w] + Words(tail)
  {
    var s := w + tail;
    assert TrimStart(s) == s;
    LeadingWordOf(w, tail);
    assert s[|w|..] == tail;
    assert Words(tail) == Words(TrimStart(tail)) by { TrimStartWords(tail); }
  }

  lemma {:induction false} LeadingWordOf(w: string, tail: string)
    requires NoSpace(w)
    requires tail == [] || IsSpace(tail[0])
    ensures LeadingWord(w + tail) == w
    decreases |w|
  {
    if w == [] {
      assert w + tail == tail;
    } else {
      assert (w + tail)[1..] == w[1..] + tail;
      LeadingWordOf(w[1..], tail);
    }
  }

  lemma {:induction false} TrimStartWords(s: string)
    ensures Words(s) == Words(TrimStart(s))
  {
    var t := TrimStart(s);
    assert TrimStart(t) == t;
  }

  /** Whitespace separators around and between `|seps| - 1` tokens: each is
      whitespace-only, and those between two tokens are non-empty. */
  predicate Separators(seps: seq<string>, n: nat)
  {
    |seps| == n + 1
    && (forall i :: 0 <= i < |seps| ==> AllSpace(seps[i]))
    && (forall i :: 0 < i < n ==> seps[i] != [])
  }

  /** `seps[0] + ws[0] + seps[1] + ... + ws[n-1] + seps[n]`. */
  function Interleave(seps: seq<string>, ws: seq<string>): string
    requires |seps| == |ws| + 1
    decreases |ws|
  {
    if ws == [] then seps[0] else seps[0] + (ws[0] + Interleave(seps[1..], ws[1..]))
  }

  /** Leading whitespace, however long, yields no token. */
  lemma {:induction false} WordsSkipAllSpace(sp: string, t: string)
    requires AllSpace(sp)
    ensures Words(sp + t) == Words(t)
    decreases |sp|
  {
    if sp != [] {
      assert (sp + t)[1..] == sp[1..] + t;
      assert TrimStart(sp + t) == TrimStart(sp[1..] + t);
      WordsSkipAllSpace(sp[1..], t);
    } else {
      assert sp + t == t;
    }
  }

  /** Tokens set apart by any whitespace separators split back into exactly
      those tokens: whitespace runs of any length and kind, leading or
      trailing, are all dropped. */
  lemma {:induction false} WordsOfInterleave(seps: seq<string>, ws: seq<string>)
    requires Separators(seps, |ws|)
    requires forall i :: 0 <= i < |ws| ==> IsWord(ws[i])
    ensures Words(Interleave(seps, ws)) == ws
    decreases |ws|
  {
    if ws == [] {
      WordsEmpty(seps[0]);
    } else {
      var rest := Interleave(seps[1..], ws[1..]);
      SeparatorsTail(seps, |ws|);
      RestStartsWithSpace(seps[1..], ws[1..]);
      WordsOfSpacedWord(seps[0], ws[0], rest);
      WordsOfInterleave(seps[1..], ws[1..]);
      assert [ws[0]] + ws[1..] == ws;
    }
  }

  /** Whitespace, a token, then nothing or more whitespace-led text. */
  lemma {:induction false} WordsOfSpacedWord(sp: string, w: string, rest: string)
    requires AllSpace(sp) && IsWord(w)
    requires rest == [] || IsSpace(rest[0])
    ensures Words(sp + (w + rest)) == [w] + Words(rest)
  {
    WordsSkipAllSpace(sp, w + rest);
    WordsOfWord(w, rest);
  }

  /** Dropping the first separator leaves separators for the remaining tokens. */
  lemma SeparatorsTail(seps: seq<string>, n: nat)
    requires Separators(seps, n) && n > 0
    ensures Separators(seps[1..], n - 1)
    ensures AllSpace(seps[1..][0]) && (n > 1 ==> seps[1..][0] != [])
  {
    assert forall i :: 0 <= i < |seps| - 1 ==> seps[1..][i] == seps[i + 1];
  }

  /** What follows a token in an interleaving starts with whitespace, or is empty. */
  lemma {:induction false} RestStartsWithSpace(seps: seq<string>, ws: seq<string>)
    requires |seps| == |ws| + 1 && AllSpace(seps[0])
    requires ws != [] ==> seps[0] != []
    ensures Interleave(seps, ws) == [] || IsSpace(Interleave(seps, ws)[0])
  {
    if ws != [] {
      assert Interleave(seps, ws)[0] == seps[0][0];
    }
  }

  /** The whitespace runs of `s`, the first before its first token and the
      last after its last one. */
  function SeparatorsOf(s: string): (seps: seq<string>)
    ensures |seps| == |Words(s)| + 1
    decreases |s|
  {
    var t := TrimStart(s);
    var lead := s[..|s| - |t|];
    if t == [] then [lead] else [lead] + SeparatorsOf(t[|LeadingWord(t)|..])
  }

  /** A string with a token splits into its leading whitespace, its first
      token, and the rest, which is empty or starts with whitespace. */
  lemma {:induction false} TokenStep(s: string) returns (lead: string, w: string, rest: string)
    requires TrimStart(s) != []
    ensures s == lead + (w + rest) && AllSpace(lead) && IsWord(w)
    ensures rest == [] || IsSpace(rest[0])
    ensures Words(s) == [w] + Words(rest)
    ensures SeparatorsOf(s) == [lead] + SeparatorsOf(rest)
  {
    var t := TrimStart(s);
    lead := s[..|s| - |t|];
    w := LeadingWord(t);
    rest := t[|w|..];
    TokenParts(s, t, w, rest);
  }

  lemma {:induction false} TokenParts(s: string, t: string, w: string, rest: string)
    requires t == TrimStart(s) && t != []
    requires w == LeadingWord(t) && rest == t[|w|..]
    ensures s == s[..|s| - |t|] + (w + rest)
    ensures AllSpace(s[..|s| - |t|]) && IsWord(w)
    ensures rest == [] || IsSpace(rest[0])
  {
    TrimStartParts(s);
    LeadingWordParts(t);
    assert t == w + rest;
  }

  /** The whitespace runs of a string are separators for its tokens. */
  lemma {:induction false} SeparatorsOfShape(s: string)
    ensures Separators(SeparatorsOf(s), |Words(s)|)
    decreases |s|
  {
    if TrimStart(s) == [] {
      TrimStartParts(s);
    } else {
      var lead, w, rest := TokenStep(s);
      SeparatorsOfShape(rest);
      if |Words(rest)| > 0 {
        LeadSeparatorNonEmpty(rest);
      }
      assert SeparatorsOf(s)[1..] == SeparatorsOf(rest);
    }
  }

  /** Putting a string's tokens back between its whitespace runs rebuilds it. */
  lemma {:induction false} InterleaveSeparatorsOf(s: string)
    ensures Interleave(SeparatorsOf(s), Words(s)) == s
    decreases |s|
  {
    if TrimStart(s) == [] {
      TrimStartParts(s);
    } else {
      var lead, w, rest := TokenStep(s);
      InterleaveSeparatorsOf(rest);
      var seps, ws := SeparatorsOf(s), Words(s);
      assert seps[1..] == SeparatorsOf(rest) && ws[1..] == Words(rest);
      assert Interleave(seps, ws) == lead + (w + Interleave(seps[1..], ws[1..]));
    }
  }

  /** A string starting with whitespace before a token has a non-empty first run. */
  lemma {:induction false} LeadSeparatorNonEmpty(rest: string)
    requires |Words(rest)| > 0
    requires rest == [] || IsSpace(rest[0])
    ensures SeparatorsOf(rest)[0] != []
  {
    var t := TrimStart(rest);
    assert t != [];
    assert rest != [];
    assert t == TrimStart(rest[1..]);
  }

  /** Python's `str.split()` characterised: `ws` are the tokens of `s` iff `s`
      is `ws` interleaved with whitespace runs, non-empty between tokens. */
  lemma {:induction false} WordsCharacterised(s: string, ws: seq<string>)
    requires forall i :: 0 <= i < |ws| ==> IsWord(ws[i])
    ensures Words(s) == ws <==> exists seps :: Separators(seps, |ws|) && Interleave(seps, ws) == s
  {
    if Words(s) == ws {
      SeparatorsOfShape(s);
      InterleaveSeparatorsOf(s);
    }
    if exists seps :: Separators(seps, |ws|) && Interleave(seps, ws) == s {
      var seps :| Separators(seps, |ws|) && Interleave(seps, ws) == s;
      WordsOfInterleave(seps, ws);
    }
  }

  /** Tabs and repeated spaces separate tokens like a single space does. */
  lemma {:induction false} WordsOfTabs()
    ensures Words(" a\t\tb  c ") == ["a", "b", "c"]
  {
    var seps, ws := [" ", "\t\t", "  ", " "], ["a", "b", "c"];
    assert IsSpace('\t') && IsSpace(' ');
    assert Interleave(seps, ws) == " a\t\tb  c ";
    WordsOfInterleave(seps, ws);
  }

  /** `parse_user` on a display name whose tokens are `ws`. */
  lemma {:induction false} SplitNameOfJoin(ws: seq<string>)
    requires forall i :: 0 <= i < |ws| ==> IsWord(ws[i])
    ensures |ws| == 0 ==> SplitName(JoinSpace(ws)) == PersonName("", "")
    ensures |ws| == 1 ==> SplitName(JoinSpace(ws)) == PersonName(ws[0], "")
    ensures |ws| > 1 ==> SplitName(JoinSpace(ws)) == PersonName(ws[0], JoinSpace(ws[1..]))
  {
    WordsOfJoin(ws);
  }

  /** A display name of several tokens: the first is the given name, the rest
      the family name. */
  lemma {:induction false} SplitNameJane()
    ensures SplitName("Jane Q. Public") == PersonName("Jane", "Q. Public")
  {
    assert JoinSpace(["Jane", "Q.", "Public"]) == "Jane Q. Public";
    assert JoinSpace(["Q.", "Public"]) == "Q. Public";
    SplitNameOfJoin(["Jane", "Q.", "Public"]);
  }

  /** A single-token display name has no family name. */
  lemma {:induction false} SplitNameMadonna()
    ensures SplitName("Madonna") == PersonName("Madonna", "")
  {
    assert JoinSpace(["Madonna"]) == "Madonna";
    SplitNameOfJoin(["Madonna"]);
  }

  /** An empty display name gives empty names. */
  lemma {:induction false} SplitNameEmpty()
    ensures SplitName("") == PersonName("", "")
  {
    SplitNameOfJoin([]);
  }

  /** The text before the first `c` of `s`, or all of `s` when `c` does not occur. */
  function PrefixBefore(s: string, c: char): (r: string)
    ensures r <= s
    ensures c !in r
    ensures |r| < |s| ==> s[|r|] == c
  {
    if s == [] || s[0] == c then [] else [s[0]] + PrefixBefore(s[1..], c)
  }

  /** A user's `externalId`: the part of the e-mail before its first '@', or
      the whole e-mail when it has none. */
  function LocalPart(email: string): (r: string)
    ensures r <= email
    ensures '@' !in r
    ensures '@' in email ==> email[|r|] == '@'
    ensures '@' !in email ==> r == email
  {
    if '@' in email then PrefixBefore(email, '@') else email
  }

  /** `needle` occurs in `hay` starting at index `i`. */
  predicate OccursAt(hay: string, needle: string, i: nat)
  {
    i + |needle| <= |hay| && hay[i..i + |needle|] == needle
  }

  /** Python's `needle in hay` for strings. */
  function Contains(hay: string, needle: string): (r: bool)
    ensures r <==> exists i: nat :: OccursAt(hay, needle, i)
    decreases |hay|
  {
    if needle <= hay then
      assert OccursAt(hay, needle, 0);
      true
    else if hay == [] then
      false
    else
      var r := Contains(hay[1..], needle);
      if r then
        var i: nat :| OccursAt(hay[1..], needle, i);
        assert hay[1..][i..i + |needle|] == hay[i + 1..i + 1 + |needle|];
        assert OccursAt(hay, needle, i + 1);
        true
      else
        assert forall i: nat :: OccursAt(hay, needle, i) ==> i > 0 && OccursAt(hay[1..], needle, i - 1) by {
          forall i: nat | OccursAt(hay, needle, i)
            ensures i > 0 && OccursAt(hay[1..], needle, i - 1)
          {
            assert i != 0;
            assert hay[1..][i - 1..i - 1 + |needle|] == hay[i..i + |needle|];
          }
        }
        false
  }
}
